=== FILE: README.md ===
# nette-model: the decision logic of the active-record base class, in Dafny

The repository is a thin active-record base class (`Model`, configured by the
`ModelConfig` trait) over a Nette database table. This project models the parts
of it that decide what is written, not how it is written:

- **mass-assignment protection** (`doProtectFields`): restricting a row to the
  allow-listed columns, or failing when protection is on with an empty list;
- **row preparation** for `insert` and `update`: rejecting empty data,
  protecting before the timestamp defaults, and filling the created, updated and
  deleted columns only when absent;
- **the hook pipeline** (`trigger`): a left fold of the payload through an
  ordered list of callbacks, modelled as function values;
- **`delete`**: the choice between a soft delete, which is routed through
  `update` and so through protection and the update hooks, and a hard delete;
  and the guard of `removeDeleted`;
- **the transient status record** (`lastID`, `noError`, `lastError`,
  `lastMessage`) and how `insert`, `resetCheckeingVars`, `setError` and
  `setWarning` change it.

The table is a parameter (`Manipulators.Store`): an insert answers with the new
key or fails, and every other request answers with a count of affected rows.
Each operation returns a `Call`: the status it leaves behind, its result or the
exception kind it throws (`ModelException.ModelError`), and the request it sent
to the table, if any. "Now" is an input.

Files: `wrappers.dfy` (Option, Result), `rows.dfy` (values, rows, PHP's
`empty()` on a column name), `model_exception.dfy`, `model_config.dfy`
(configuration, status, payloads, defaults), `hooks.dfy`, `date_time.dfy`,
`protection.dfy`, `status_tracking.dfy`, `manipulators.dfy`,
`properties.dfy` (properties across calls) and `defaults.dfy` (what a model that
overrides nothing does).

Two details of PHP shape the model. `empty($name)` is true for `""` and also for
`"0"`, so a column named `"0"` counts as unnamed (`Rows.IsEmptyName`).
`date(pattern, t)` depends on the time zone, so its text is kept symbolic as
`DateText(pattern, t)`.

A consequence worth knowing: a soft delete goes through `update`, so with
protection on and the deleted column not allow-listed, protection strips the
deletion marker. When the deleted and updated columns differ and no beforeUpdate
hook adds the marker back, the row is then not marked as deleted, and at most
the updated column is written (`ModelProperties.SoftDeleteStripsMarker`).

## Model

| member | source | states |
|---|---|---|
| `Protection.Protect` | src/Model.php:387-409 | With protection off the row is returned unchanged. With it on and an empty allow-list the result is InvalidAllowedFields. Otherwise the result holds exactly the input columns found in the allow-list, with their values. |
| `Protection.ProtectFields` | src/Model.php:397-408 | The source's filtering loop without the recursive call at lines 399-401 (the corrected loop), which visits each column once and drops it unless allow-listed, computes the same result as `Protect`. |
| `Protection.ProtectKeepsColumns` | src/Model.php:397-408 | A successful protection keeps exactly the input's columns, intersected with the allow-list when protection is on. |
| `Protection.ProtectIdempotent` | src/Model.php:387-409 | Protecting an already protected row changes nothing. |
| `Protection.ProtectAsWrittenNeverReturns` | src/Model.php:397-405 | As written, with protection on, a non-empty allow-list and a non-empty row, `doProtectFields` calls itself on the same row before filtering, so it runs out of stack at every depth. |
| `Protection.ProtectAsWritten` | src/Model.php:387-409 | The source's `doProtectFields`, with `depth` call frames of stack left. With protection off it returns the row, and with an empty allow-list it fails with InvalidAllowedFields. An empty row always returns. Whenever it returns at all, its result is the one `Protect` gives. |
| `DateTime.SetDateTime` | src/Model.php:428-441 | Succeeds exactly for 'datetime', 'date' and 'int' and fails with NoDateFormat otherwise. For 'int' the value is the given epoch, or now when none is given. |
| `DateTime.StampCarriesInstant` | src/Model.php:430-437 | Every timestamp produced stands for the instant it was asked for: the given epoch, or now. |
| `Hooks.RunHooks` | src/Model.php:464-483 | The source's loop, in which each callback replaces the payload in turn, computes the fold `Trigger`. |
| `Hooks.TriggerAppend` | src/Model.php:472-480 | Running two hook lists one after the other is the same as running their concatenation. |
| `Hooks.Trigger` | src/Model.php:464-483 | With no hooks registered the payload comes back unchanged. Otherwise the last hook receives the output of all the hooks registered before it, so each hook sees its predecessor's output. |
| `Hooks.TriggerNoHooks` | src/Model.php:466-470 | With no hooks registered, the payload comes back unchanged. |
| `Hooks.TriggerInOrder` | src/Model.php:472-480 | Registering [h1, h2] calls h1 first and hands its output to h2. |
| `StatusTracking.ResetCheckingVars` | src/Model.php:496-504 | Resetting returns the status a fresh model starts with: no error, no error message, no message, last id 0. |
| `StatusTracking.AnyError` | src/Model.php:514-517 | `anyError` is the negation of `noError`, so a clean status reports no error. |
| `StatusTracking.GetError` | src/Model.php:520-523 | `getError` returns the recorded error message, which is none on a clean status. |
| `StatusTracking.SetErrorDefault` | src/Model.php:526-530 | `setError()` with no argument is `setError` with 'Error while operating with database! (E1001)'. |
| `StatusTracking.SetError` | src/Model.php:526-530 | After setError, `anyError` is true and `getError` is the message. The last id and the message stay as they were. |
| `StatusTracking.SetWarningAsWritten` | src/Model.php:532-536 | setWarning as written records the message and keeps the last id and the error message. `anyError` then holds exactly when the warning is NOT critical (the inversion of the second Finding). |
| `StatusTracking.SetWarning` | src/Model.php:532-536 | setWarning as intended records the message, and `anyError` becomes true exactly when the warning is critical. |
| `StatusTracking.SetWarningDefaultAsWritten` | src/Model.php:532-536 | `setWarning(msg)` as written, with `isCritical` at its default false, records the message and makes `anyError` true. |
| `StatusTracking.SetWarningDefault` | src/Model.php:532-536 | `setWarning(msg)` as intended, with `isCritical` at its default false, records the message and reports no error. |
| `StatusTracking.SetWarningAsWrittenInverted` | src/Model.php:532-536 | As written, `anyError` becomes true exactly when the warning is NOT critical, the opposite of the intended version. |
| `Manipulators.StampInsert` | src/Model.php:244-255 | With timestamps off the row is unchanged. Otherwise the result holds the input's columns plus the non-empty auto column names, and keeps the caller's values. A missing created column gets the current time and missing updated and deleted columns get null. It fails with NoDateFormat exactly when it needs a created stamp and the format is unknown. |
| `Manipulators.PrepareInsert` | src/Model.php:233-255 | Empty data fails with EmptyDataset, and an empty allow-list under protection fails with InvalidAllowedFields. It fails exactly in these cases or when a created stamp is needed under an unknown format, and any other failure is NoDateFormat. Otherwise the row holds the protected columns plus every auto column, with the caller's values for the protected columns. With timestamps on, a named created column absent after protection holds the current time, and named updated and deleted columns absent after protection hold null. The auto columns survive protection. |
| `Manipulators.Insert` | src/Model.php:228-279 | Insert fails exactly when preparation fails, with preparation's error, and then leaves a clean status and sends nothing. Empty data is EmptyDataset. If the store refuses the row, the result is false, `anyError` is true and `getError` is 'Failed to save the data!'. If it accepts, the last id is the new key. The result is then that key as the returned id when returnID is set, and otherwise the inserted row known by that key. Whenever insert succeeds, the row sent to the store is the beforeInsert hooks' output of the prepared row. |
| `Manipulators.BeforeUpdate` | src/Model.php:307 | The row the beforeUpdate hooks return for the protected row. With no hooks registered it is the protected row itself. |
| `Manipulators.UpdateRow` | src/Model.php:294-312 | Empty data fails with EmptyDataset, and an empty allow-list under protection fails with InvalidAllowedFields. It fails exactly in these cases or when the updated column must be stamped under an unknown format, and any other failure is NoDateFormat. The written row is the beforeUpdate hooks' output of the protected row. The updated column is set to now exactly when timestamps are on, the name is non-empty and the column was absent from the protected row before the hooks ran. |
| `Manipulators.Update` | src/Model.php:292-319 | Update fails exactly when the row cannot be prepared, with `UpdateRow`'s error, and then sends nothing. Otherwise it writes exactly `UpdateRow`'s row to the given ids and returns the affected count. It never changes the status. |
| `Manipulators.SoftDeleteSet` | src/Model.php:336-340 | A soft delete sets the deleted column, plus the updated column when it is named, all to the same timestamp. |
| `Manipulators.Delete` | src/Model.php:332-350 | The rows are removed (a HardDelete request) exactly when soft deletes are off or `completely` is set. Otherwise the result is an update of the same ids, and it reaches the store whenever the date format is known and the allow-list is valid. An unknown format fails with NoDateFormat, and an empty allow-list under protection with InvalidAllowedFields, both sending nothing. The status is untouched. |
| `Manipulators.RemoveDeleted` | src/Model.php:359-367 | Without soft deletes the result is 0 and no request is sent. With them, the model sends the intended purge of the marked rows in place of the source's `findAll` query, and returns the store's count. |
| `ModelProperties.StampInsertIdempotent` | src/Model.php:244-255 | Applying the timestamp defaults a second time changes nothing. |
| `ModelProperties.InsertStoresAllowedPlusAuto` | src/Model.php:241-259 | With protection on and no beforeInsert hooks, insert stores exactly the allow-listed input columns plus the auto timestamp columns, with the caller's values. |
| `ModelProperties.CreatedColumnSurvivesProtection` | src/Model.php:241-248 | The created column is stamped with the current time even when it is not allow-listed, and even when the caller supplied it. |
| `ModelProperties.InsertForgetsPreviousStatus` | src/Model.php:230-231 | Insert resets first, so its effect does not depend on the model's earlier status. |
| `ModelProperties.UpdatedColumnWritten` | src/Model.php:305-312 | Update writes the updated column exactly when it stamps it, or when the hooks' output holds it. |
| `ModelProperties.UpdateStampOverridesHooks` | src/Model.php:309-312 | When update stamps the updated column, the current time replaces any value a hook put there. |
| `ModelProperties.SoftDeleteIsUpdate` | src/Model.php:336-341 | A soft delete is exactly an update of the same ids with the marker columns set to now. |
| `ModelProperties.SoftDeleteMarksRows` | src/Model.php:336-341 | Without protection or update hooks, a soft delete writes now into the deleted column and into the named updated column, and nothing else. |
| `ModelProperties.SoftDeleteStripsMarker` | src/Model.php:336-341 | With protection on, the deleted column not allow-listed, the deleted and updated columns different and no beforeUpdate hook to add the marker back, the soft delete writes no deletion marker and at most the updated column. The updated column is set to now when it is named and either timestamps are on or it is allow-listed. |
| `Defaults.DocumentedDefaults` | src/ModelConfig.php:34-150 | The defaults are: primary key 'id'; columns created_at, updated_at and deleted_at; protection off with an empty allow-list; soft deletes and timestamps on; format 'datetime'. A fresh status has last id 0, no error and no messages. |
| `Defaults.DefaultPassesDataThrough` | src/ModelConfig.php:36-50 | A default model passes data through protection unfiltered. |
| `Defaults.DefaultTriggersAreIdentity` | src/ModelConfig.php:165-206 | All seven hook lists of a default model are empty, so every event leaves its payload unchanged. |
| `Defaults.DefaultDeleteIsSoft` | src/ModelConfig.php:73-98 | A default delete(ids) is a soft delete that writes the current date and time to deleted_at and updated_at. |
| `Defaults.DefaultInsertStamps` | src/ModelConfig.php:52-98 | A default insert sends its data plus created_at, updated_at and deleted_at. When absent, created_at is set to the current date and time and the other two to null. |

## Left out

- Finders (`get`, `find`, `findAll`, `findDeleted`, `getBy`, `findBy`): they only build Nette queries, whose meaning is Nette's. Only the `find($ids)` used inside `update` and `delete` is kept, as the id set of the request.
- What the table does with a request (Nette's `Selection::insert/update/delete`, `getPrimary`): the store is a parameter.
- The constructor, `getTable`, `setTable` and `getModel`: the table name comes from a regular expression on the runtime class name, and the table object from the database connection.
- The empty stubs `save`, `findColumn`, `findOrFail` and `findOrEmpty`, the commented-out `__call`, and the `SmartObject` behaviour.
- The text of the 'datetime' and 'date' formats: PHP's `date()` depends on the time zone. It is kept as the symbolic `DateTime.SetDateTime` value `DateText(pattern, epoch)`.
- The clock: `time()` is the input `now`, read once per operation. The soft path of `delete` reads the clock up to three times in the source (src/Model.php:337, 339, and 310 when protection strips the updated column), and the readings could fall in different seconds.
- Converting a `Traversable` argument to an array: the model's data is already a row. PHP's `empty()` is false on any object, so the source lets an empty iterator past the empty-data check. The model does not cover that case.
- PHP's conversion of integer-like string keys to integer keys: it would make the strict allow-list comparison miss such a column. Rows here are keyed by strings.
- Hooks that change the model: in the source a hook is a method of the model and can change its state. Here hooks are pure payload-to-payload functions. The results of the afterInsert, afterUpdate, beforeDelete and afterDelete hooks are discarded by the source, so the model does not run them.
- The difference between an absent payload key and a null one: keys the source does not set are modelled as absent values. The delete events carry no data, because the source always passes null there.
- Triggering an event whose list is not a declared property: all the modelled flows use the seven declared lists.
- `afterFind`: it is fired only by `findDeleted`, which is left out. The list exists in the configuration, but nothing triggers it.
- `returnType` and `NoPrimaryKey`: the first is never read, and the second is never thrown. The exception message texts are also left out; only the error kinds are kept.
- Manipulators.RemoveDeleted: the source does not perform this purge. Its soft branch calls `findAll()` (src/Model.php:364), which reads the undeclared property `tempUseSoftDeletes` (src/Model.php:126). The class uses `SmartObject` (src/Model.php:17), whose property read throws on undeclared properties. Even without that, `limit(0, 0)` (src/Model.php:130) would bound the DELETE. The model puts the intended purge in its place: one request that removes every row whose deleted column is set. It promises nothing about what the source actually does on this branch.
- Manipulators.Insert: uses the corrected `Protection.Protect`. As written, with protection on, a non-empty allow-list and non-empty data it never returns (see Findings).
- Manipulators.Update: uses the corrected `Protection.Protect`, for the same reason.
- Manipulators.Delete: its soft path uses the corrected `Protection.Protect` through `update`, for the same reason.

## Findings

| source | as written | input that shows it | evidently intended | confidence | as-written member | corrected member |
|---|---|---|---|---|---|---|
| src/Model.php:397-405 | Inside the loop, `doProtectFields($data)` calls itself on the same row before anything is filtered, and discards the answer. Each inner call does the same. | protectFields = true, allowedFields = ['a'], data = ['a' => 1]: the call never returns and exhausts the stack. | Filter the row once, with no recursive call on the whole row. | not executed; high | `Protection.ProtectAsWritten` (shown by `Protection.ProtectAsWrittenNeverReturns`) | `Protection.Protect` (loop form `Protection.ProtectFields`) |
| src/Model.php:532-536 | `setWarning` stores `$isCritical` itself as `noError`. | setWarning('m', true) leaves anyError() false. setWarning('m') leaves anyError() true. | `noError` is the negation of `isCritical`, so only a critical warning counts as an error. | not executed; medium | `StatusTracking.SetWarningAsWritten` and `StatusTracking.SetWarningDefaultAsWritten` (shown by `StatusTracking.SetWarningAsWrittenInverted`) | `StatusTracking.SetWarning` and `StatusTracking.SetWarningDefault` |

=== FILE: date_time.dfy ===
/** Converting an instant into the configured timestamp representation. */
module DateTime {
  import opened Wrappers
  import opened Rows
  import opened ModelException
  import opened ModelConfig

  /** `setDateTime`: the given epoch, or `now` when none is given, as an integer
      ('int'), as date-and-time text ('datetime') or as date text ('date'); any
      other format is an error. */
  function SetDateTime(format: string, userData: Option<int>, now: int): (r: Result<Value, ModelError>)
    ensures r.Ok? <==> format in DateFormats
    ensures r.Err? ==> r.error == NoDateFormat
    ensures format == "int" ==> r == Ok(Int(if userData.Some? then userData.value else now))
  {
    var instant := if userData.Some? then userData.value else now;
    if format == "int" then Ok(Int(instant))
    else if format == "datetime" then Ok(DateText("Y-m-d H:i:s", instant))
    else if format == "date" then Ok(DateText("Y-m-d", instant))
    else Err(NoDateFormat)
  }

  /** The instant a timestamp value stands for, if it is one. */
  function Instant(v: Value): Option<int> {
    match v
    case Int(i) => Some(i)
    case DateText(_, epoch) => Some(epoch)
    case _ => None
  }

  /** Every timestamp `SetDateTime` produces stands for the instant it was given. */
  lemma StampCarriesInstant(format: string, userData: Option<int>, now: int)
    requires format in DateFormats
    ensures SetDateTime(format, userData, now).Ok?
    ensures Instant(SetDateTime(format, userData, now).value)
         == Some(if userData.Some? then userData.value else now)
  {
  }
}

=== FILE: defaults.dfy ===
/** What a model that overrides none of the configuration does. */
module Defaults {
  import opened Wrappers
  import opened Rows
  import opened ModelConfig
  import opened Hooks
  import opened Protection
  import opened StatusTracking
  import opened Manipulators

  /** The documented default configuration and starting status. */
  lemma DocumentedDefaults()
    ensures DefaultConfig.primaryKey == "id"
    ensures DefaultConfig.createdField == "created_at"
    ensures DefaultConfig.updatedField == "updated_at"
    ensures DefaultConfig.deletedField == "deleted_at"
    ensures !DefaultConfig.protectFields && |DefaultConfig.allowedFields| == 0
    ensures DefaultConfig.useSoftDeletes && DefaultConfig.useTimestamps
    ensures DefaultConfig.dateFormat == "datetime" && DefaultConfig.dateFormat in DateFormats
    ensures DefaultModel.status.lastID == Int(0) && !AnyError(DefaultModel.status)
    ensures GetError(DefaultModel.status) == None && DefaultModel.status.lastMessage == None
  {
  }

  /** A default model passes data through protection unfiltered. */
  lemma DefaultPassesDataThrough(data: Row)
    ensures Protect(DefaultConfig, data) == Ok(data)
  {
  }

  /** Every event of a default model leaves its payload unchanged. */
  lemma DefaultTriggersAreIdentity(e: RowEvent, d: DeleteEvent, f: FindEvent)
    ensures Trigger(DefaultConfig.beforeInsert, e) == e && Trigger(DefaultConfig.afterInsert, e) == e
    ensures Trigger(DefaultConfig.beforeUpdate, e) == e && Trigger(DefaultConfig.afterUpdate, e) == e
    ensures Trigger(DefaultConfig.afterFind, f) == f
    ensures Trigger(DefaultConfig.beforeDelete, d) == d && Trigger(DefaultConfig.afterDelete, d) == d
  {
  }

  /** A default `delete(ids)` is a soft delete that stamps both marker columns
      with the current date and time. */
  lemma DefaultDeleteIsSoft(ids: Ids, store: Store, now: int)
    ensures SoftPath(DefaultConfig, false)
    ensures Delete(DefaultModel, ids, false, store, now).issued
            == Some(SetColumns(ids, map["deleted_at" := DateText("Y-m-d H:i:s", now),
                                        "updated_at" := DateText("Y-m-d H:i:s", now)]))
  {
  }

  /** A default `insert` sends its data with the three timestamp columns added:
      the created column stamped now, the others null, unless supplied. */
  lemma DefaultInsertStamps(data: Row, returnID: bool, store: Store, now: int)
    requires |data| > 0
    ensures Insert(DefaultModel, data, returnID, store, now).issued.Some?
    ensures var row := Insert(DefaultModel, data, returnID, store, now).issued.value.row;
            && row.Keys == data.Keys + {"created_at", "updated_at", "deleted_at"}
            && (forall k :: k in data ==> row[k] == data[k])
            && ("created_at" !in data ==> row["created_at"] == DateText("Y-m-d H:i:s", now))
            && ("updated_at" !in data ==> row["updated_at"] == Null)
            && ("deleted_at" !in data ==> row["deleted_at"] == Null)
  {
  }
}

=== FILE: hooks.dfy ===
/** The hook pipeline: a payload threaded through an ordered list of callbacks. */
module Hooks {

  /** Runs the hooks in registration order, each receiving the previous one's
      output; with no hooks the payload comes back unchanged, and otherwise the
      last hook receives the output of all the hooks registered before it. */
  function Trigger<P>(hooks: seq<P -> P>, payload: P): (r: P)
    ensures |hooks| == 0 ==> r == payload
    ensures |hooks| > 0 ==> r == hooks[|hooks| - 1](Trigger(hooks[..|hooks| - 1], payload))
    decreases |hooks|
  {
    if |hooks| == 0 then payload
    else
      var rest := hooks[1..];
      assert |rest| > 0 ==> rest[..|rest| - 1] == hooks[..|hooks| - 1][1..];
      Trigger(rest, hooks[0](payload))
  }

  /** Running two lists of hooks one after the other is running their concatenation. */
  lemma {:induction false} TriggerAppend<P>(first: seq<P -> P>, second: seq<P -> P>, payload: P)
    ensures Trigger(first + second, payload) == Trigger(second, Trigger(first, payload))
    decreases |first|
  {
    if |first| == 0 {
      assert first + second == second;
    } else {
      assert (first + second)[1..] == first[1..] + second;
      TriggerAppend(first[1..], second, first[0](payload));
    }
  }

  /** With no hooks registered the event leaves its payload as it was. */
  lemma TriggerNoHooks<P>(payload: P)
    ensures Trigger([], payload) == payload
  {
  }

  /** Registering `[h1, h2]` calls `h1` first and hands its output to `h2`. */
  lemma TriggerInOrder<P>(h1: P -> P, h2: P -> P, payload: P)
    ensures Trigger([h1, h2], payload) == h2(h1(payload))
  {
  }

  /** The loop of the source: each callback replaces the payload in turn. */
  method RunHooks<P>(hooks: seq<P -> P>, payload: P) returns (r: P)
    ensures r == Trigger(hooks, payload)
  {
    r := payload;
    for i := 0 to |hooks|
      invariant r == Trigger(hooks[..i], payload)
    {
      assert hooks[..i + 1] == hooks[..i] + [hooks[i]];
      TriggerAppend(hooks[..i], [hooks[i]], payload);
      r := hooks[i](r);
    }
    assert hooks[..|hooks|] == hooks;
  }
}

=== FILE: manipulators.dfy ===
/** The mutating operations of the model: insert, update, delete and
    removeDeleted. The store is a parameter; every operation returns the status
    it leaves behind, its result or exception, and the request it sent to the
    store (none when it failed before reaching the store). */
module Manipulators {
  import opened Wrappers
  import opened Rows
  import opened ModelException
  import opened ModelConfig
  import opened Hooks
  import opened DateTime
  import opened Protection
  import opened StatusTracking

  /** A request sent to the table. */
  datatype Request =
    | InsertRow(row: Row)
    | SetColumns(ids: Ids, row: Row)   // update the rows whose primary key is in ids
    | HardDelete(ids: Ids)             // remove the rows whose primary key is in ids
    | PurgeDeleted(marker: string)     // remove every row whose marker column is not null

  /** The table as the model sees it: an insert yields the new key or fails, and
      every other request yields the number of rows it affected. */
  datatype Store = Store(insert: Row -> Option<Value>, affected: Request -> nat)

  /** What `insert` returns: `false`, the inserted row (known by its key), or the
      inserted id. */
  datatype InsertReturn = ReturnedFalse | ReturnedRow(key: Value) | ReturnedId(id: Value)

  /** The effect of one call on a model. */
  datatype Call<T> = Call(status: Status, outcome: Result<T, ModelError>, issued: Option<Request>)

  /** The columns `insert` fills in when absent: the non-empty names among the
      created, updated and deleted columns, when timestamps are on. */
  function AutoColumns(c: Config): set<string> {
    if !c.useTimestamps then {}
    else
      (if IsEmptyName(c.createdField) then {} else {c.createdField})
      + (if IsEmptyName(c.updatedField) then {} else {c.updatedField})
      + (if IsEmptyName(c.deletedField) then {} else {c.deletedField})
  }

  /** Whether `insert` must stamp the created column of `data`. */
  predicate NeedsCreated(c: Config, data: Row) {
    c.useTimestamps && !IsEmptyName(c.createdField) && c.createdField !in data
  }

  /** The timestamp defaults of `insert`: the created column gets the current
      time and the updated and deleted columns get null, each only when its name
      is non-empty and the row lacks it; values the row already has are kept. */
  function StampInsert(c: Config, data: Row, now: int): (r: Result<Row, ModelError>)
    ensures !c.useTimestamps ==> r == Ok(data)
    ensures r.Err? <==> NeedsCreated(c, data) && c.dateFormat !in DateFormats
    ensures r.Err? ==> r.error == NoDateFormat
    ensures r.Ok? ==> r.value.Keys == data.Keys + AutoColumns(c)
    ensures r.Ok? ==> forall k :: k in data ==> r.value[k] == data[k]
    ensures r.Ok? && NeedsCreated(c, data) ==>
              SetDateTime(c.dateFormat, None, now) == Ok(r.value[c.createdField])
    ensures r.Ok? ==>
              forall k :: k in AutoColumns(c) && k !in data && k != c.createdField ==> r.value[k] == Null
  {
    if !c.useTimestamps then Ok(data)
    else
      var created :-
        if NeedsCreated(c, data) then
          var stamp :- SetDateTime(c.dateFormat, None, now);
          Ok(data[c.createdField := stamp])
        else Ok(data);
      var updated :=
        if !IsEmptyName(c.updatedField) && c.updatedField !in created
        then created[c.updatedField := Null] else created;
      var deleted :=
        if !IsEmptyName(c.deletedField) && c.deletedField !in updated
        then updated[c.deletedField := Null] else updated;
      Ok(deleted)
  }

  /** The row `insert` hands to the `beforeInsert` hooks: non-empty data,
      protected first and then given its timestamp defaults, so the automatic
      columns survive protection even when they are not allow-listed. */
  function PrepareInsert(c: Config, data: Row, now: int): (r: Result<Row, ModelError>)
    ensures |data| == 0 ==> r == Err(EmptyDataset)
    ensures r.Err? <==>
              || |data| == 0
              || (c.protectFields && |c.allowedFields| == 0)
              || (c.useTimestamps && !IsEmptyName(c.createdField)
                  && c.createdField !in KeptColumns(c, data) && c.dateFormat !in DateFormats)
    ensures |data| > 0 && c.protectFields && |c.allowedFields| == 0 ==> r == Err(InvalidAllowedFields)
    ensures r.Err? && |data| > 0 && !(c.protectFields && |c.allowedFields| == 0) ==> r.error == NoDateFormat
    ensures r.Ok? ==> r.value.Keys == KeptColumns(c, data) + AutoColumns(c)
    ensures r.Ok? ==> forall k :: k in KeptColumns(c, data) ==> r.value[k] == data[k]
    ensures r.Ok? && c.useTimestamps && !IsEmptyName(c.createdField) && c.createdField !in KeptColumns(c, data) ==>
              SetDateTime(c.dateFormat, None, now) == Ok(r.value[c.createdField])
    ensures r.Ok? ==>
              forall k :: k in AutoColumns(c) && k !in KeptColumns(c, data) && k != c.createdField ==> r.value[k] == Null
  {
    if |data| == 0 then Err(EmptyDataset)
    else
      var kept :- Protect(c, data);
      ProtectKeepsColumns(c, data);
      StampInsert(c, kept, now)
  }

  /** `insert`: resets the status, prepares the row, runs the `beforeInsert`
      hooks and sends their row to the store. A refused row leaves an error and
      the result `false`; an accepted one leaves its key as the last id, which is
      returned exactly when `returnID` is set. */
  function Insert(m: Model, data: Row, returnID: bool, store: Store, now: int): (r: Call<InsertReturn>)
    ensures r.status.lastMessage == None
    ensures r.outcome.Err? <==> PrepareInsert(m.config, data, now).Err?
    ensures r.outcome.Err? ==> r.status == CleanStatus && r.issued == None
    ensures r.outcome.Err? ==> r.outcome.error == PrepareInsert(m.config, data, now).error
    ensures |data| == 0 ==> r.outcome == Err(EmptyDataset)
    ensures r.outcome.Ok? ==>
              r.issued == Some(InsertRow(
                Trigger(m.config.beforeInsert, RowEvent(None, PrepareInsert(m.config, data, now).value, Pending)).data))
    ensures r.outcome.Ok? && store.insert(r.issued.value.row).None? ==>
              && r.outcome.value == ReturnedFalse
              && AnyError(r.status)
              && GetError(r.status) == Some(SaveFailedMessage)
              && r.status.lastID == Int(0)
    ensures r.outcome.Ok? && store.insert(r.issued.value.row).Some? ==>
              && !AnyError(r.status)
              && GetError(r.status) == None
              && r.status.lastID == store.insert(r.issued.value.row).value
              && (r.outcome.value.ReturnedId? <==> returnID)
              && r.outcome.value
                 == (if returnID then ReturnedId(r.status.lastID) else ReturnedRow(r.status.lastID))
  {
    var status := ResetCheckingVars(m.status);
    match PrepareInsert(m.config, data, now)
    case Err(e) => Call(status, Err(e), None)
    case Ok(prepared) =>
      var sent := Trigger(m.config.beforeInsert, RowEvent(None, prepared, Pending)).data;
      // The afterInsert hooks run next; their result is discarded.
      match store.insert(sent)
      case None =>
        Call(status.(noError := false, lastError := Some(SaveFailedMessage)), Ok(ReturnedFalse), Some(InsertRow(sent)))
      case Some(key) =>
        Call(status.(lastID := key), Ok(if returnID then ReturnedId(key) else ReturnedRow(key)), Some(InsertRow(sent)))
  }

  /** The row the `beforeUpdate` hooks return for the protected row; with no
      hooks registered it is the protected row itself. */
  function BeforeUpdate(c: Config, ids: Ids, kept: Row): (r: Row)
    ensures |c.beforeUpdate| == 0 ==> r == kept
  {
    Trigger(c.beforeUpdate, RowEvent(Some(ids), kept, Pending)).data
  }

  /** Whether `update` stamps the updated column. The test looks at the
      protected row as it was BEFORE the hooks ran. */
  predicate StampsUpdate(c: Config, kept: Row) {
    c.useTimestamps && !IsEmptyName(c.updatedField) && c.updatedField !in kept
  }

  /** The row `update` writes: the hooks' output, with the updated column set to
      the current time (overriding the hooks) when `StampsUpdate` holds. */
  function UpdateRow(c: Config, ids: Ids, data: Row, now: int): (r: Result<Row, ModelError>)
    ensures |data| == 0 ==> r == Err(EmptyDataset)
    ensures |data| > 0 && c.protectFields && |c.allowedFields| == 0 ==> r == Err(InvalidAllowedFields)
    ensures r.Err? <==>
              || |data| == 0
              || (c.protectFields && |c.allowedFields| == 0)
              || (StampsUpdate(c, Protect(c, data).value) && c.dateFormat !in DateFormats)
    ensures r.Err? && |data| > 0 && !(c.protectFields && |c.allowedFields| == 0) ==> r.error == NoDateFormat
    ensures r.Ok? ==>
              var hooked := BeforeUpdate(c, ids, Protect(c, data).value);
              if StampsUpdate(c, Protect(c, data).value) then
                && r.value.Keys == hooked.Keys + {c.updatedField}
                && (forall k :: k in hooked && k != c.updatedField ==> r.value[k] == hooked[k])
                && SetDateTime(c.dateFormat, None, now) == Ok(r.value[c.updatedField])
              else r.value == hooked
  {
    if |data| == 0 then Err(EmptyDataset)
    else
      var kept :- Protect(c, data);
      var hooked := BeforeUpdate(c, ids, kept);
      if StampsUpdate(c, kept) then
        var stamp :- SetDateTime(c.dateFormat, None, now);
        Ok(hooked + map[c.updatedField := stamp])
      else Ok(hooked)
  }

  /** `update`: writes `UpdateRow` to the rows with the given ids and returns
      how many were affected. It never touches the status. */
  function Update(m: Model, ids: Ids, data: Row, store: Store, now: int): (r: Call<nat>)
    ensures r.status == m.status
    ensures r.outcome.Err? <==> r.issued.None?
    ensures r.outcome.Err? <==> UpdateRow(m.config, ids, data, now).Err?
    ensures r.outcome.Err? ==> r.outcome.error == UpdateRow(m.config, ids, data, now).error
    ensures |data| == 0 ==> r.outcome == Err(EmptyDataset)
    ensures r.issued.Some? ==>
              && r.issued.value.SetColumns?
              && r.issued.value.ids == ids
              && r.issued.value.row == UpdateRow(m.config, ids, data, now).value
              && r.outcome == Ok(store.affected(r.issued.value))
  {
    match UpdateRow(m.config, ids, data, now)
    case Err(e) => Call(m.status, Err(e), None)
    case Ok(row) =>
      // The afterUpdate hooks run next; their result is discarded.
      Call(m.status, Ok(store.affected(SetColumns(ids, row))), Some(SetColumns(ids, row)))
  }

  /** Whether `delete` marks rows instead of removing them. */
  predicate SoftPath(c: Config, completely: bool) {
    c.useSoftDeletes && !completely
  }

  /** The columns a soft delete sets: the deleted column, and the updated column
      when it is named. */
  function SoftDeleteSet(c: Config, stamp: Value): (r: Row)
    ensures r.Keys == {c.deletedField} + (if IsEmptyName(c.updatedField) then {} else {c.updatedField})
    ensures forall k :: k in r ==> r[k] == stamp
  {
    var marked := map[c.deletedField := stamp];
    if IsEmptyName(c.updatedField) then marked else marked[c.updatedField := stamp]
  }

  /** `delete`: a soft delete is an `update` that stamps the marker columns with
      the current time; otherwise the rows are removed. The status is untouched. */
  function Delete(m: Model, ids: Ids, completely: bool, store: Store, now: int): (r: Call<nat>)
    ensures r.status == m.status
    ensures (r.issued.Some? && r.issued.value.HardDelete?) <==> !SoftPath(m.config, completely)
    ensures !SoftPath(m.config, completely) ==>
              r.issued == Some(HardDelete(ids)) && r.outcome == Ok(store.affected(HardDelete(ids)))
    ensures SoftPath(m.config, completely) ==>
              (r.outcome.Err? <==> r.issued.None?)
              && (r.issued.Some? ==> r.issued.value.SetColumns? && r.issued.value.ids == ids)
    ensures SoftPath(m.config, completely) && m.config.dateFormat in DateFormats
            && !(m.config.protectFields && |m.config.allowedFields| == 0) ==>
              r.issued.Some?
    ensures SoftPath(m.config, completely) && m.config.dateFormat !in DateFormats ==>
              r.outcome == Err(NoDateFormat) && r.issued == None
    ensures SoftPath(m.config, completely) && m.config.dateFormat in DateFormats
            && m.config.protectFields && |m.config.allowedFields| == 0 ==>
              r.outcome == Err(InvalidAllowedFields) && r.issued == None
  {
    // The beforeDelete hooks run first; their result is discarded.
    if SoftPath(m.config, completely) then
      match SetDateTime(m.config.dateFormat, None, now)
      case Err(e) => Call(m.status, Err(e), None)
      case Ok(stamp) => Update(m, ids, SoftDeleteSet(m.config, stamp), store, now)
    else
      // The afterDelete hooks run last; their result is discarded.
      Call(m.status, Ok(store.affected(HardDelete(ids))), Some(HardDelete(ids)))
  }

  /** `removeDeleted`: without soft deletes it returns 0 and sends nothing;
      otherwise it removes every row whose deleted column is set. */
  function RemoveDeleted(m: Model, store: Store): (r: Call<nat>)
    ensures r.status == m.status
    ensures !m.config.useSoftDeletes ==> r.outcome == Ok(0) && r.issued == None
    ensures m.config.useSoftDeletes ==>
              && r.issued == Some(PurgeDeleted(m.config.deletedField))
              && r.outcome == Ok(store.affected(PurgeDeleted(m.config.deletedField)))
  {
    if !m.config.useSoftDeletes then Call(m.status, Ok(0), None)
    else
      var purge := PurgeDeleted(m.config.deletedField);
      Call(m.status, Ok(store.affected(purge)), Some(purge))
  }
}

=== FILE: model_config.dfy ===
/** The configuration and transient state an active-record model carries, with
    the default values a model starts from. */
module ModelConfig {
  import opened Wrappers
  import opened Rows

  /** What a store call produced, as handed to the after-hooks. `Pending` is the
      `null` result of a before-event. */
  datatype Outcome =
    | Pending
    | InsertFailed
    | InsertedRow(key: Value)
    | Affected(count: nat)

  /** The payload of the insert and update events: the ids (absent for
      `beforeInsert`), the row being written, and the store's result. */
  datatype RowEvent = RowEvent(id: Option<Ids>, data: Row, result: Outcome)

  /** The payload of the delete events. The source always passes `null` as its
      data, so the model carries none. */
  datatype DeleteEvent = DeleteEvent(id: Ids, completely: bool, result: Outcome)

  /** The payload of `afterFind`: the selected columns and the rows found. */
  datatype FindEvent = FindEvent(columns: string, data: seq<Row>)

  /** A hook: a callback that receives the payload and returns the (possibly
      changed) payload for the next hook. */
  type Hook<!P> = P -> P

  datatype Config = Config(
    primaryKey: string,
    protectFields: bool,
    allowedFields: seq<string>,
    createdField: string,
    updatedField: string,
    deletedField: string,
    useSoftDeletes: bool,
    useTimestamps: bool,
    dateFormat: string,
    returnType: string,
    beforeInsert: seq<Hook<RowEvent>>,
    afterInsert: seq<Hook<RowEvent>>,
    beforeUpdate: seq<Hook<RowEvent>>,
    afterUpdate: seq<Hook<RowEvent>>,
    afterFind: seq<Hook<FindEvent>>,
    beforeDelete: seq<Hook<DeleteEvent>>,
    afterDelete: seq<Hook<DeleteEvent>>
  )

  /** The status of the last operation, for the caller to inspect afterwards. */
  datatype Status = Status(
    lastID: Value,
    noError: bool,
    lastError: Option<string>,
    lastMessage: Option<string>
  )

  /** A model instance: its configuration and its transient status. */
  datatype Model = Model(config: Config, status: Status)

  /** The documented date formats. */
  const DateFormats: set<string> := {"datetime", "date", "int"}

  const DefaultConfig: Config := Config(
    primaryKey := "id",
    protectFields := false,
    allowedFields := [],
    createdField := "created_at",
    updatedField := "updated_at",
    deletedField := "deleted_at",
    useSoftDeletes := true,
    useTimestamps := true,
    dateFormat := "datetime",
    returnType := "array",
    beforeInsert := [],
    afterInsert := [],
    beforeUpdate := [],
    afterUpdate := [],
    afterFind := [],
    beforeDelete := [],
    afterDelete := []
  )

  /** The status a model starts with, and the one every reset returns to. */
  const CleanStatus: Status := Status(Int(0), true, None, None)

  const DefaultModel: Model := Model(DefaultConfig, CleanStatus)

  /** The columns `allowedFields` lists, as a set. */
  function AllowedSet(c: Config): set<string> {
    set k | k in c.allowedFields
  }
}

=== FILE: model_exception.dfy ===
/** The exception kinds thrown by the modelled flows. */
module ModelException {

  datatype ModelError =
    | EmptyDataset          // insert or update called with no data
    | InvalidAllowedFields  // protection on, but the allow-list is empty
    | NoDateFormat          // the configured date format is not one of the known three
}

=== FILE: properties.dfy ===
/** Properties that relate several calls, or follow from the order in which an
    operation's steps run. */
module ModelProperties {
  import opened Wrappers
  import opened Rows
  import opened ModelConfig
  import opened DateTime
  import opened Protection
  import opened Manipulators

  /** Giving a row its timestamp defaults a second time changes nothing. */
  lemma StampInsertIdempotent(c: Config, data: Row, now: int)
    requires StampInsert(c, data, now).Ok?
    ensures StampInsert(c, StampInsert(c, data, now).value, now) == StampInsert(c, data, now)
  {
  }

  /** With protection on and no `beforeInsert` hooks, `insert` stores exactly the
      allow-listed columns of its input plus the automatic timestamp columns. */
  lemma InsertStoresAllowedPlusAuto(m: Model, data: Row, returnID: bool, store: Store, now: int)
    requires m.config.protectFields && |m.config.allowedFields| > 0
    requires |m.config.beforeInsert| == 0
    requires |data| > 0 && m.config.dateFormat in DateFormats
    ensures Insert(m, data, returnID, store, now).issued.Some?
    ensures Insert(m, data, returnID, store, now).issued.value.row.Keys
            == (data.Keys * AllowedSet(m.config)) + AutoColumns(m.config)
    ensures forall k :: k in data && k in m.config.allowedFields ==>
              Insert(m, data, returnID, store, now).issued.value.row[k] == data[k]
  {
  }

  /** Protection runs before the timestamp defaults: with timestamps on, the
      created column is stamped with the current time even when it is not
      allow-listed, and even when the caller supplied a value for it. */
  lemma CreatedColumnSurvivesProtection(c: Config, data: Row, now: int)
    requires c.protectFields && |c.allowedFields| > 0 && c.useTimestamps
    requires !IsEmptyName(c.createdField) && c.createdField !in c.allowedFields
    requires |data| > 0 && c.dateFormat in DateFormats
    ensures PrepareInsert(c, data, now).Ok?
    ensures c.createdField in PrepareInsert(c, data, now).value
    ensures SetDateTime(c.dateFormat, None, now) == Ok(PrepareInsert(c, data, now).value[c.createdField])
  {
  }

  /** `insert` resets the status first, so what it leaves behind does not depend
      on the status the model had before. */
  lemma InsertForgetsPreviousStatus(m: Model, s: Status, data: Row, returnID: bool, store: Store, now: int)
    ensures Insert(m, data, returnID, store, now) == Insert(m.(status := s), data, returnID, store, now)
  {
  }

  /** Whether `update` writes the updated column: when it stamps it (decided on
      the protected row before the hooks), or when the hooks' row has it. A hook
      that drops a column the caller supplied therefore drops it for good. */
  lemma UpdatedColumnWritten(c: Config, ids: Ids, data: Row, now: int)
    requires UpdateRow(c, ids, data, now).Ok?
    ensures var kept := Protect(c, data).value;
            c.updatedField in UpdateRow(c, ids, data, now).value
            <==> StampsUpdate(c, kept) || c.updatedField in BeforeUpdate(c, ids, kept)
  {
  }

  /** When `update` stamps the updated column, the current time wins over any
      value a `beforeUpdate` hook put there. */
  lemma UpdateStampOverridesHooks(c: Config, ids: Ids, data: Row, now: int)
    requires UpdateRow(c, ids, data, now).Ok?
    requires StampsUpdate(c, Protect(c, data).value)
    ensures SetDateTime(c.dateFormat, None, now) == Ok(UpdateRow(c, ids, data, now).value[c.updatedField])
  {
  }

  /** A soft delete is exactly an `update` of the rows that sets the marker
      columns to the current time. */
  lemma SoftDeleteIsUpdate(m: Model, ids: Ids, completely: bool, store: Store, now: int)
    requires SoftPath(m.config, completely) && m.config.dateFormat in DateFormats
    ensures SetDateTime(m.config.dateFormat, None, now).Ok?
    ensures Delete(m, ids, completely, store, now)
            == Update(m, ids, SoftDeleteSet(m.config, SetDateTime(m.config.dateFormat, None, now).value), store, now)
  {
  }

  /** Without protection or `beforeUpdate` hooks, a soft delete writes the
      current time into the deleted column and, when it is named, the updated
      column, and nothing else. */
  lemma SoftDeleteMarksRows(m: Model, ids: Ids, completely: bool, store: Store, now: int)
    requires SoftPath(m.config, completely) && m.config.dateFormat in DateFormats
    requires !m.config.protectFields && |m.config.beforeUpdate| == 0
    ensures SetDateTime(m.config.dateFormat, None, now).Ok?
    ensures Delete(m, ids, completely, store, now).issued
            == Some(SetColumns(ids, SoftDeleteSet(m.config, SetDateTime(m.config.dateFormat, None, now).value)))
  {
  }

  /** With protection on and the deleted column not allow-listed, a soft delete
      loses its marker to protection: the row is not marked as deleted, and at
      most the updated column is written. */
  lemma SoftDeleteStripsMarker(m: Model, ids: Ids, completely: bool, store: Store, now: int)
    requires SoftPath(m.config, completely) && m.config.dateFormat in DateFormats
    requires m.config.protectFields && |m.config.allowedFields| > 0
    requires m.config.deletedField !in m.config.allowedFields
    requires m.config.deletedField != m.config.updatedField
    requires |m.config.beforeUpdate| == 0
    ensures Delete(m, ids, completely, store, now).issued.Some?
    ensures Delete(m, ids, completely, store, now).issued.value.SetColumns?
    ensures m.config.deletedField !in Delete(m, ids, completely, store, now).issued.value.row
    ensures Delete(m, ids, completely, store, now).issued.value.row.Keys <= {m.config.updatedField}
    ensures !IsEmptyName(m.config.updatedField)
            && (m.config.useTimestamps || m.config.updatedField in m.config.allowedFields) ==>
              Delete(m, ids, completely, store, now).issued.value.row
              == map[m.config.updatedField := SetDateTime(m.config.dateFormat, None, now).value]
  {
  }
}

=== FILE: protection.dfy ===
/** Mass-assignment protection: restricting a row to the allow-listed columns. */
module Protection {
  import opened Wrappers
  import opened Rows
  import opened ModelException
  import opened ModelConfig

  /** `doProtectFields`: with protection off the row passes unchanged; with it on
      an empty allow-list is an error, and otherwise exactly the allow-listed
      columns survive, with their values. */
  function Protect(c: Config, data: Row): (r: Result<Row, ModelError>)
    ensures !c.protectFields ==> r == Ok(data)
    ensures c.protectFields && |c.allowedFields| == 0 ==> r == Err(InvalidAllowedFields)
    ensures c.protectFields && |c.allowedFields| > 0 ==> r.Ok?
    ensures c.protectFields && r.Ok? ==>
              forall k :: k in r.value <==> k in data && k in c.allowedFields
    ensures r.Ok? ==> forall k :: k in r.value ==> k in data && r.value[k] == data[k]
  {
    if !c.protectFields then Ok(data)
    else if |c.allowedFields| == 0 then Err(InvalidAllowedFields)
    else Ok(map k | k in data && k in c.allowedFields :: data[k])
  }

  /** The columns a protected row keeps. */
  function KeptColumns(c: Config, data: Row): set<string> {
    if c.protectFields then data.Keys * AllowedSet(c) else data.Keys
  }

  /** The source's filtering loop without the recursive call on the whole row
      (the corrected loop): visit every column once and drop it unless
      allow-listed. */
  method ProtectFields(c: Config, data: Row) returns (r: Result<Row, ModelError>)
    ensures r == Protect(c, data)
  {
    if !c.protectFields {
      return Ok(data);
    }
    if |c.allowedFields| == 0 {
      return Err(InvalidAllowedFields);
    }
    var kept := data;
    var todo := data.Keys;
    while todo != {}
      invariant todo <= data.Keys
      invariant forall k :: k in kept <==> k in data && (k in todo || k in c.allowedFields)
      invariant forall k :: k in kept ==> kept[k] == data[k]
      decreases todo
    {
      var k :| k in todo;
      if k !in c.allowedFields {
        kept := kept - {k};
      }
      todo := todo - {k};
    }
    var expected := Protect(c, data).value;
    assert kept.Keys == expected.Keys;
    assert forall k :: k in kept ==> kept[k] == expected[k];
    assert kept == expected;
    return Ok(kept);
  }

  /** A successful protection keeps exactly `KeptColumns`. */
  lemma ProtectKeepsColumns(c: Config, data: Row)
    requires Protect(c, data).Ok?
    ensures Protect(c, data).value.Keys == KeptColumns(c, data)
  {
  }

  /** Protecting an already protected row changes nothing. */
  lemma ProtectIdempotent(c: Config, data: Row)
    requires Protect(c, data).Ok?
    ensures Protect(c, Protect(c, data).value) == Protect(c, data)
  {
    var once := Protect(c, data).value;
    if c.protectFields {
      var twice := Protect(c, once).value;
      assert twice.Keys == once.Keys;
      assert forall k :: k in twice ==> twice[k] == once[k];
      assert twice == once;
    }
  }

  /** How a PHP call ends: it returns a value, or the call stack runs out. */
  datatype Run<T> = Returned(value: T) | StackExhausted

  /** `doProtectFields` as the source writes it. Inside the loop it calls itself
      on the same, still unfiltered row before filtering anything, and discards
      the answer. `depth` is the number of further call frames the stack can
      hold. The code after a returning inner call is the corrected filter; no
      inner call ever returns (see `ProtectAsWrittenNeverReturns`). */
  function ProtectAsWritten(c: Config, data: Row, depth: nat): (r: Run<Result<Row, ModelError>>)
    ensures !c.protectFields ==> r == Returned(Ok(data))
    ensures c.protectFields && |c.allowedFields| == 0 ==> r == Returned(Err(InvalidAllowedFields))
    ensures c.protectFields && |data| == 0 ==> r.Returned?
    ensures r.Returned? ==> r.value == Protect(c, data)
    decreases depth
  {
    if !c.protectFields then Returned(Ok(data))
    else if |c.allowedFields| == 0 then Returned(Err(InvalidAllowedFields))
    else if |data| == 0 then Returned(Ok(data))
    else if depth == 0 then StackExhausted
    else
      match ProtectAsWritten(c, data, depth - 1)
      case StackExhausted => StackExhausted
      case Returned(_) => Returned(Protect(c, data))
  }

  /** With protection on, a non-empty allow-list and a non-empty row, the
      source's `doProtectFields` exhausts any finite stack and never returns. */
  lemma {:induction false} ProtectAsWrittenNeverReturns(c: Config, data: Row, depth: nat)
    requires c.protectFields && |c.allowedFields| > 0 && |data| > 0
    ensures ProtectAsWritten(c, data, depth) == StackExhausted
    decreases depth
  {
    if depth > 0 {
      ProtectAsWrittenNeverReturns(c, data, depth - 1);
    }
  }
}

=== FILE: rows.dfy ===
/** The values the model moves between the caller, the hooks and the store. */
module Rows {

  /** A scalar column value. `DateText(pattern, epoch)` stands for the text PHP's
      `date(pattern, epoch)` produces; that text depends on the time zone and is
      left uninterpreted. */
  datatype Value =
    | Null
    | Bool(b: bool)
    | Int(i: int)
    | Str(s: string)
    | DateText(pattern: string, epoch: int)

  /** A row: column name to value. */
  type Row = map<string, Value>

  /** The primary key(s) an update or delete targets: one key or a list of keys. */
  datatype Ids = One(key: Value) | Many(keys: seq<Value>)

  /** PHP's `empty()` on a string: true for "" and also for "0". */
  predicate IsEmptyName(name: string) {
    name == "" || name == "0"
  }
}

=== FILE: status_tracking.dfy ===
/** Reading and writing the transient status of the last operation. */
module StatusTracking {
  import opened Wrappers
  import opened Rows
  import opened ModelConfig

  /** The message `setError` records when called without one. */
  const DefaultErrorMessage: string := "Error while operating with database! (E1001)"

  /** The message `insert` records when the store refuses the row. */
  const SaveFailedMessage: string := "Failed to save the data!"

  /** `anyError`: whether the last operation recorded an error. */
  function AnyError(s: Status): (r: bool)
    ensures r <==> !s.noError
    ensures s == CleanStatus ==> !r
  {
    !s.noError
  }

  /** `getError`: the recorded error message, if any. */
  function GetError(s: Status): (r: Option<string>)
    ensures r == s.lastError
    ensures s == CleanStatus ==> r == None
  {
    s.lastError
  }

  /** `resetCheckeingVars`: back to the status a fresh model starts with, so no
      error, no message and no last id survive. */
  function ResetCheckingVars(s: Status): (r: Status)
    ensures r == DefaultModel.status
    ensures !AnyError(r) && GetError(r) == None && r.lastMessage == None
  {
    Status(Int(0), true, None, None)
  }

  /** `setError`: records `msg` as the error; the last id and message stay. */
  function SetError(s: Status, msg: string): (r: Status)
    ensures AnyError(r) && GetError(r) == Some(msg)
    ensures r.lastID == s.lastID && r.lastMessage == s.lastMessage
  {
    s.(noError := false, lastError := Some(msg))
  }

  /** `setError()` with no argument: records the default message. */
  function SetErrorDefault(s: Status): (r: Status)
    ensures r == SetError(s, DefaultErrorMessage)
    ensures AnyError(r) && GetError(r) == Some(DefaultErrorMessage)
  {
    SetError(s, DefaultErrorMessage)
  }

  /** `setWarning` as the source writes it: the error flag becomes the
      criticality itself, so a critical warning clears it and a harmless one
      sets it. */
  function SetWarningAsWritten(s: Status, msg: string, isCritical: bool): (r: Status)
    ensures r.lastMessage == Some(msg)
    ensures AnyError(r) <==> !isCritical
    ensures r.lastID == s.lastID && GetError(r) == GetError(s)
  {
    s.(noError := isCritical, lastMessage := Some(msg))
  }

  /** `setWarning` as evidently intended: records `msg`; the last operation
      counts as failed exactly when the warning is critical. */
  function SetWarning(s: Status, msg: string, isCritical: bool): (r: Status)
    ensures r.lastMessage == Some(msg)
    ensures AnyError(r) <==> isCritical
    ensures r.lastID == s.lastID && GetError(r) == GetError(s)
  {
    s.(noError := !isCritical, lastMessage := Some(msg))
  }

  /** `setWarning(msg)` as written, with `isCritical` left at its default
      `false`: the harmless warning makes `anyError` true. */
  function SetWarningDefaultAsWritten(s: Status, msg: string): (r: Status)
    ensures r == SetWarningAsWritten(s, msg, false)
    ensures AnyError(r) && r.lastMessage == Some(msg)
  {
    SetWarningAsWritten(s, msg, false)
  }

  /** `setWarning(msg)` as intended, with `isCritical` at its default `false`:
      the message is recorded and no error is reported. */
  function SetWarningDefault(s: Status, msg: string): (r: Status)
    ensures r == SetWarning(s, msg, false)
    ensures !AnyError(r) && r.lastMessage == Some(msg)
  {
    SetWarning(s, msg, false)
  }

  /** The source's `setWarning` inverts the error flag: for every status and
      message it reports an error exactly when the warning is NOT critical, the
      opposite of the intended version. */
  lemma SetWarningAsWrittenInverted(s: Status, msg: string, isCritical: bool)
    ensures AnyError(SetWarningAsWritten(s, msg, isCritical)) <==> !isCritical
    ensures AnyError(SetWarningAsWritten(s, msg, isCritical)) != AnyError(SetWarning(s, msg, isCritical))
  {
  }
}

=== FILE: wrappers.dfy ===
/** Failure-compatible wrappers used across the model: an optional value and a
    result that carries either a value or an error (usable with `:-`). */
module Wrappers {

  /** A value that may be absent; `None` stands for PHP's `null`. */
  datatype Option<+T> = None | Some(value: T)

  /** The outcome of an operation that may throw: `Err` carries the exception kind. */
  datatype Result<+T, +E> = Ok(value: T) | Err(error: E) {

    predicate IsFailure() {
      Err?
    }

    function PropagateFailure<U>(): Result<U, E>
      requires Err?
    {
      Err(error)
    }

    function Extract(): T
      requires Ok?
    {
      value
    }
  }
}
